=== FILE: README.md ===
# Item store with sequential IDs — a Dafny model

This project models the server of a small item-management application. The
server keeps items in MongoDB through Mongoose. Each item gets a sequential
integer `itemId` from a counter record. The item is stored with a trimmed
`name`, a trimmed `description` and `createdAt`/`updatedAt` timestamps, and
REST handlers create, list, fetch, update and delete it.

The model is purely functional:

- `ItemModel` (item_model.dfy) holds the Mongoose side:
  - the counter record, addressed by the fixed key `"itemId"`;
  - the schema validators and the `trim` setter;
  - the `pre('save')` hook that assigns `itemId`;
  - `Save`. Mongoose runs validation first, then its built-in timestamps hook, then the user `itemId` hook, then the write. The timestamps only read the clock, so the model applies them together with the write.
- The database is an immutable `State`. It holds the items keyed by `itemId`, the counters collection, and a logical clock that ticks once per successful save; a delete does not tick it.
- `Server` (server.dfy) has one function per Express route. Each takes a state and returns the HTTP status, the JSON payload and the next state.
- A storage failure is chosen by the caller as a `Fault`: a failing query, a failing counter update or a failing document write.
- `Text` (text.dfy) models `String.prototype.trim` over the ECMAScript white-space and line-terminator code points.
- `Properties` (properties.dfy) proves the following about the handlers and about arbitrary request sequences (`Run`):
  - a store invariant is preserved;
  - IDs are fresh and strictly increasing, and are never reissued after a delete;
  - updates are in place;
  - failures leave the data alone;
  - read-after-write behaves as expected;
  - the listing is ordered newest first.

The following edge behaviour follows the code:

- **The first `itemId` is 1.** The counter schema declares `sequence_value` with default 1. But `findByIdAndUpdate` with `upsert` and `$inc` creates the record from the update itself, so the increment starts from an absent field (0) and returns 1.
- **Validation consumes no ID.** Mongoose validates before user `pre('save')` hooks run, so a rejected body consumes no counter value.
- **A failed write leaves a gap.** When the document write fails after the counter was advanced, the counter stays advanced and no item is stored.
- **Lookup failures map differently per route.** A failing lookup in PUT is caught by the same `catch` as a failing save and answered with 400. GET and DELETE answer a failing query with 500.

## Model

| member | source | states |
|---|---|---|
| Text.Trim | server/models/Item.js:20 | The trimmed string has no leading or trailing white space, is no longer than the input, and is empty exactly when the input is all white space |
| Text.TrimIsCore | server/models/Item.js:20 | Independent characterisation: for any split of `s` into a white-space prefix, a core with no edge spaces and a white-space suffix, trimming returns that core |
| Text.TrimUnpadded | server/models/Item.js:20 | A string without edge white space is unchanged by trimming |
| Text.TrimIdempotent | server/models/Item.js:20 | Trimming an already trimmed value changes nothing, so re-saving a stored name or description is stable |
| Text.TrimStart | server/models/Item.js:20 | The result is a suffix of the input that does not start with white space, and everything cut off is white space |
| Text.TrimEnd | server/models/Item.js:20 | The result is a prefix of the input that does not end with white space, and everything cut off is white space |
| ItemModel.NextValue | server/models/Item.js:39-45 | The atomic upsert-and-increment on the counter returns the post-increment value and records it under that key alone, leaving every other counter record as it was: one more than the stored value, or 1 when no record exists yet |
| ItemModel.AllocationsAreConsecutive | server/models/Item.js:4-7 | `n` successive allocations return base+1, …, base+n (strictly increasing, hence pairwise distinct as the unique `itemId` index demands), starting at 1 with no record, and leave the record at base+n |
| ItemModel.SetString | server/models/Item.js:17-26 | Assigning to a `trim: true` path stores a value without edge white space, and it then passes `required` (`Present`: set and not empty) exactly when the value was given and is not all white space; an unset value stays unset |
| ItemModel.Validate | server/models/Item.js:17-26 | Validation reports no error exactly when both `name` and `description` pass `required` (`Present`: set and not the empty string) after trimming |
| ItemModel.ValidateMessages | server/models/Item.js:19 | The message "Please add a name" appears exactly when `name` is missing or blank; likewise "Please add a description" for `description` (line 24) |
| ItemModel.AssignItemId | server/models/Item.js:32-50 | A document with a truthy `itemId` (`Truthy`: set and not 0, the test `if (doc.itemId)` at line 34) passes through with the counter untouched; otherwise the hook fails exactly when the counter update fails, assigning nothing; on success the counter under key "itemId" advances by one and the document gets that value |
| ItemModel.Save | server/models/Item.js:12-50 | Invalid fields fail with the validators' messages and change nothing; any failure leaves items and clock unchanged and moves the counter by at most one; a success stores the trimmed fields under the new or kept `itemId`, keeps `createdAt` of an existing document, stamps `updatedAt`, and replaces only that document |
| ItemModel.EmptyInv | server/models/Item.js:4-16 | The empty database (no items, no counter) satisfies the store invariant |
| Server.InsertByCreated | server/server.js:43 | Inserting into a newest-first sequence keeps it newest first, adds exactly the new item (the result's multiset is the input's plus that item) and keeps `itemId`s distinct |
| Server.Listing | server/server.js:43 | `find().sort({createdAt: -1})`: every stored item appears, the length equals the number of items, every element is a stored item, and the order is by `createdAt` descending |
| Server.Create | server/server.js:19-37 | POST builds the document from `name` and `description` only; 201 returns an item numbered one past the counter, which records exactly that value while other counter records stay as they were, with trimmed fields and fresh timestamps, added under a new key; 400 leaves items and clock unchanged; invalid fields or a failing counter change nothing; a failing write after allocation keeps the advanced counter |
| Server.Handle | server/server.js:19-119 | The route table: every answer is 200, 201, 400, 404 or 500; only POST answers 201; the two GET routes never change the database; 404 comes only from the id routes and changes nothing |
| Server.List | server/server.js:40-53 | GET all never changes state; it is 500 exactly when the query fails, and otherwise 200 with every stored item, newest first (an empty store gives an empty list) |
| Server.Get | server/server.js:56-69 | GET one looks up by `itemId`; 404 exactly when absent, 200 with that very item when present, 500 when the query fails; state unchanged |
| Server.Update | server/server.js:72-96 | PUT answers 404 exactly when the `itemId` is absent and then changes nothing; invalid fields give 400 with nothing changed; a failing lookup is 400, and so is a failing write of an existing item; 200 returns the trimmed fields with the original `createdAt` and a fresh `updatedAt` |
| Server.Delete | server/server.js:99-119 | DELETE answers 500 exactly when the query fails and otherwise 404 exactly when absent, both changing nothing, so a working delete of a present item is 200; 200 returns `{message, item}` with the removed item and removes exactly that key, counter untouched |
| Properties.CounterAdvancePreservesInv | server/models/Item.js:39-45 | Raising the counter never breaks the store invariant |
| Properties.InsertPreservesInv | server/models/Item.js:27-29 | Storing a new item under the freshly allocated value, stamped now, keeps every item well formed and creation times in allocation order |
| Properties.ReplacePreservesInv | server/models/Item.js:27-29 | Rewriting an item in place with its `createdAt` kept and `updatedAt` refreshed keeps the invariant |
| Properties.CreatePreservesInv | server/server.js:19-37 | Any create, successful or not, keeps the invariant and never lowers the counter |
| Properties.UpdatePreservesInv | server/server.js:72-96 | Any update keeps the invariant and leaves the counter alone |
| Properties.DeletePreservesInv | server/server.js:99-119 | Any delete keeps the invariant and leaves the counter alone |
| Properties.HandlePreservesInv | server/server.js:19-119 | Every request keeps the invariant and never lowers the counter |
| Properties.CreateIssuesFreshId | server/server.js:23-29 | A successful create's `itemId` is at least 1, larger than every stored `itemId`, and only that key is added |
| Properties.CreateSucceeds | server/server.js:23-29 | On a consistent store, valid fields with no storage failure always yield 201 |
| Properties.FirstCreatesAreOneAndTwo | server/models/Item.js:39-45 | Before the counter record exists, the first create is numbered 1 and the next one 2 |
| Properties.UpdateKeepsItemId | server/server.js:83-88 | PUT never touches the counter; a 200 keeps the `itemId` and `createdAt` and replaces only that entry, so the set of keys is unchanged; any other status changes nothing |
| Properties.SaveInPlace | server/models/Item.js:33-36 | Saving a document that already carries a truthy `itemId` skips allocation, and on success overwrites its own entry; on failure nothing changes; with valid fields only a failing write makes it fail |
| Properties.UpdateSucceeds | server/server.js:83-88 | With an existing item, valid fields and no failing lookup or write, PUT yields 200 |
| Properties.FailuresLeaveStateUnchanged | server/server.js:30-35 | Any request answered with neither 200 nor 201 leaves the database unchanged, except that a failed create may have consumed one counter value |
| Properties.GetAfterDeleteIsNotFound | server/server.js:103-111 | With a working store, DELETE answers 200 exactly when the item exists, and a later GET of that `itemId` is 404 |
| Properties.GetAfterCreate | server/server.js:23-29 | After a 201, GET of the new `itemId` returns exactly the created item, whose fields are the trimmed input |
| Properties.GetAfterUpdate | server/server.js:83-88 | After a 200 update, GET of that `itemId` returns the new trimmed fields under the same `itemId` |
| Properties.ListIsNewestFirst | server/server.js:43-45 | On a consistent store, GET all is 200 and lists every item exactly once, as stored, in strictly decreasing `createdAt` and `itemId`; the strict order rests on the logical clock (see "Left out") |
| Properties.ListOfThree | server/server.js:43-45 | A store holding items 1, 2 and 3, created in that order under the logical clock, lists them as 3, 2, 1 |
| Properties.CreateStep | server/server.js:23-29 | A valid create on a consistent store is a 201 that allocates the next value and adds just the new item, keeping the invariant |
| Properties.ThreeCreatesListNewestFirst | server/server.js:43-45 | Creating A, B and C in that order on an empty store makes GET all return C, B, A, because the logical clock gives each a later `createdAt` |
| Properties.HandleIssuesNextValue | server/models/Item.js:39-45 | A request hands out at most one `itemId`, and only by a 201: the counter's next value, which the counter then records |
| Properties.RunIssuesIncreasingIds | server/models/Item.js:13-16 | Over any sequence of requests, the `itemId`s issued by successful creates strictly increase and lie between the initial and final counter values; the invariant holds throughout |
| Properties.StoredIdsNeverReissued | server/models/Item.js:13-16 | No `itemId` of a stored item is ever handed out again, whatever requests follow |
| Properties.DeletedIdNeverReissued | server/server.js:103-111 | The `itemId` of a deleted item is never handed out again, because the counter is never decremented |

## Left out

- HTTP plumbing is not modelled: Express path matching, JSON body parsing, CORS, console logging and `app.listen`. Requests and responses are datatypes.
- The MongoDB connection in server/config/db.js is not part of this model. An unreachable database is a `Fault` on the request.
- The React client in client/src/App.js is not part of this model.
- Concurrency is not modelled; requests are served one at a time. The counter's upsert-and-increment is a single atomic step, as MongoDB performs it.
- `parseInt` of the path parameter is not modelled. Ids arrive as integers, so `NaN` and the cast errors it can cause are not represented.
- Real time is not modelled: `createdAt`/`updatedAt` read a logical clock that ticks once per successful save, instead of the wall clock. With the wall clock, two saves in the same millisecond share a `createdAt`, and a clock set back can give a later item an earlier one.
- The internal `_id` and `__v` fields are not represented, and error messages are reduced to an `Error` datatype.
- Body values are modelled as strings or absent. The casting of other JSON types by Mongoose is not modelled.
- JavaScript numbers are unbounded integers here. Precision loss of `itemId` above 2^53 is not modelled.
- ItemModel.AssignItemId: truthiness of `itemId` treats any set non-zero integer as truthy; `NaN` is not represented.
- ItemModel.Save: refreshes `updatedAt` on every successful save. Mongoose skips the refresh when the save modifies nothing.
- ItemModel.Save: a duplicate `itemId` on write is refused with a duplicate-key error. Mongoose's asynchronous index build is not modelled.
- Server.List: its contract fixes the order by `createdAt` only. For items with equal `createdAt`, MongoDB's sort may return them in any order, and that tie order is not modelled.
- Properties.ListIsNewestFirst: the strictly decreasing `createdAt` and `itemId` order holds because the logical clock ticks on every save. With the wall clock, ties and a clock set back are possible, and the order of equal or reversed `createdAt` values is then not promised.
- Properties.ThreeCreatesListNewestFirst: the answer C, B, A holds for the logical clock. With the wall clock, three creates in the same millisecond may be listed in any order. The same holds for Properties.ListOfThree.

=== FILE: item_model.dfy ===
/**
 * The Mongoose models of server/models/Item.js: the single counter record,
 * the Item schema (required, trimmed `name` and `description`, unique
 * `itemId`, timestamps) and the `pre('save')` hook that assigns `itemId`.
 *
 * The database is an immutable `State`; a storage failure is chosen by the
 * caller through a `Fault`, standing in for an unreachable or failing MongoDB.
 */
module ItemModel {
  import opened Wrappers
  import opened Text

  /** The `_id` of the one counter record the hook ever addresses. */
  const CounterKey: string := "itemId"

  /** The messages of the two `required` validators. */
  const NameRequired: string := "Please add a name"
  const DescriptionRequired: string := "Please add a description"

  /** Which primitive storage step, if any, fails during one request. */
  datatype Fault =
    | NoFault
    | ReadFault     // a query (`find`, `findOne`, `findOneAndDelete`) throws
    | CounterFault  // the counter's `findByIdAndUpdate` throws
    | WriteFault    // the document write of `save` throws

  /** The errors a save or query can raise. */
  datatype Error =
    | ValidationError(messages: seq<string>)
    | PersistenceError
    | DuplicateKeyError  // the unique index on `itemId` refused the write

  /** A stored item; `createdAt` and `updatedAt` are readings of the logical clock. */
  datatype Item = Item(itemId: int, name: string, description: string, createdAt: nat, updatedAt: nat)

  /**
   * An in-memory document about to be saved. `stored` is the `itemId` under
   * which the document is already persisted (`None` for a new document); the
   * other fields are the document's paths, `None` when unset.
   */
  datatype Doc = Doc(
    stored: Option<int>,
    itemId: Option<int>,
    name: Option<string>,
    description: Option<string>,
    createdAt: Option<nat>)

  /** The database: the Item collection keyed by `itemId`, the counters collection, and the clock. */
  datatype State = State(items: map<int, Item>, counters: map<string, int>, clock: nat)

  /** A database with no items and no counter record. */
  const Empty: State := State(map[], map[], 0)

  /** The last value the `itemId` sequence handed out, or 0 before the counter record exists. */
  function Ceiling(counters: map<string, int>): int {
    if CounterKey in counters then counters[CounterKey] else 0
  }

  /**
   * `findByIdAndUpdate(key, {$inc: {sequence_value: 1}}, {upsert: true, new: true})`:
   * one atomic step that creates the record when it is missing (the `$inc` then
   * starts from 0, as the update's own path takes no schema default) and
   * returns the value after the increment.
   */
  function NextValue(counters: map<string, int>, key: string): (r: (int, map<string, int>))
    ensures key in r.1 && r.1[key] == r.0
    ensures key in counters ==> r.0 == counters[key] + 1
    ensures key !in counters ==> r.0 == 1
    ensures r.1 == counters[key := r.0]
  {
    var v := (if key in counters then counters[key] else 0) + 1;
    (v, counters[key := v])
  }

  /** The values `n` successive allocations on `key` return, and the counters after them. */
  function Allocations(counters: map<string, int>, key: string, n: nat): (r: (seq<int>, map<string, int>))
    ensures |r.0| == n
    decreases n
  {
    if n == 0 then ([], counters)
    else
      var (v, c) := NextValue(counters, key);
      var (vs, c') := Allocations(c, key, n - 1);
      ([v] + vs, c')
  }

  /** A sequence whose values strictly increase from left to right. */
  predicate StrictlyIncreasing(xs: seq<int>) {
    forall i, j :: 0 <= i < j < |xs| ==> xs[i] < xs[j]
  }

  /**
   * Successive allocations return the next values of the sequence in order:
   * the first is one past the stored value (1 when there is no record), each
   * is one past the previous, and the record ends at the last one.
   */
  lemma {:induction false} AllocationsAreConsecutive(counters: map<string, int>, key: string, n: nat)
    ensures var (vs, c') := Allocations(counters, key, n);
      var base := if key in counters then counters[key] else 0;
      && (forall i :: 0 <= i < n ==> vs[i] == base + i + 1)
      && StrictlyIncreasing(vs)
      && (if key in c' then c'[key] else 0) == base + n
      && (n > 0 ==> key in c')
    decreases n
  {
    if n > 0 {
      var (v, c) := NextValue(counters, key);
      AllocationsAreConsecutive(c, key, n - 1);
    }
  }

  /** Mongoose's `required` check on a String path: set and not the empty string. */
  predicate Present(v: Option<string>) {
    v.Some? && v.value != []
  }

  /**
   * Assigning a value to a path with `trim: true`: the stored value is trimmed,
   * so it passes `required` exactly when it was given and is not all white space.
   */
  function SetString(v: Option<string>): (r: Option<string>)
    ensures Present(r) <==> v.Some? && !AllSpace(v.value)
    ensures r.Some? ==> NoEdgeSpace(r.value)
    ensures r.None? <==> v.None?
    ensures r.Some? ==> r.value == Trim(v.value)
  {
    match v
    case None => None
    case Some(x) => Some(Trim(x))
  }

  /** The messages of the validators that fail on `d`, in schema order. */
  function Validate(d: Doc): (errs: seq<string>)
    ensures errs == [] <==> Present(d.name) && Present(d.description)
  {
    (if Present(d.name) then [] else [NameRequired])
    + (if Present(d.description) then [] else [DescriptionRequired])
  }

  /** Each failing validator, and only those, contributes its message. */
  lemma ValidateMessages(d: Doc)
    ensures NameRequired in Validate(d) <==> !Present(d.name)
    ensures DescriptionRequired in Validate(d) <==> !Present(d.description)
  {
  }

  /** JavaScript truthiness of a Number path: set and not zero. */
  predicate Truthy(id: Option<int>) {
    id.Some? && id.value != 0
  }

  /**
   * The `pre('save')` hook: a document whose `itemId` is truthy passes
   * through; otherwise the counter is advanced and its new value assigned.
   * A failing counter update aborts the save with no `itemId` assigned.
   */
  function AssignItemId(d: Doc, counters: map<string, int>, f: Fault): (r: Result<(Doc, map<string, int>), Error>)
    ensures Truthy(d.itemId) ==> r == Ok((d, counters))
    ensures !Truthy(d.itemId) ==> (r.Err? <==> f == CounterFault)
    ensures r.Err? ==> r.error == PersistenceError
    ensures r.Ok? && !Truthy(d.itemId) ==>
      var (d', c') := r.value;
      && c' == counters[CounterKey := Ceiling(counters) + 1]
      && d' == d.(itemId := Some(Ceiling(counters) + 1))
    ensures r.Ok? ==> r.value.0.itemId.Some?
  {
    if Truthy(d.itemId) then Ok((d, counters))
    else if f == CounterFault then Err(PersistenceError)
    else
      var (v, c') := NextValue(counters, CounterKey);
      Ok((d.(itemId := Some(v)), c'))
  }

  /**
   * `doc.save()`: validation, then the built-in timestamps hook (registered by
   * the schema option, so ahead of user hooks), then the `itemId` hook, then the
   * write. The timestamps read the clock and touch nothing else, so the model
   * takes them together with the write. A failure before the `itemId` hook
   * changes nothing; a failure after it keeps the advanced counter, leaving a
   * permanent gap in the sequence.
   */
  function Save(s: State, d: Doc, f: Fault): (r: (Result<Item, Error>, State))
    ensures !Present(d.name) || !Present(d.description) ==>
      r.0 == Err(ValidationError(Validate(d))) && r.1 == s
    ensures r.0.Err? ==> r.1.items == s.items && r.1.clock == s.clock
    ensures r.1.counters == s.counters || r.1.counters == s.counters[CounterKey := Ceiling(s.counters) + 1]
    ensures Truthy(d.itemId) ==> r.1.counters == s.counters
    ensures r.0.Ok? && !Truthy(d.itemId) ==> r.1.counters == s.counters[CounterKey := Ceiling(s.counters) + 1]
    ensures r.0.Ok? ==>
      var item := r.0.value;
      && Present(d.name) && Present(d.description)
      && item.name == d.name.value && item.description == d.description.value
      && item.itemId == (if Truthy(d.itemId) then d.itemId.value else Ceiling(s.counters) + 1)
      && item.createdAt == (if d.createdAt.Some? then d.createdAt.value else s.clock)
      && item.updatedAt == s.clock
      && r.1.clock == s.clock + 1
      && r.1.items == (if d.stored.Some? then s.items - {d.stored.value} else s.items)[item.itemId := item]
      && item.itemId !in (if d.stored.Some? then s.items - {d.stored.value} else s.items)
  {
    var errs := Validate(d);
    if errs != [] then (Err(ValidationError(errs)), s)
    else match AssignItemId(d, s.counters, f)
      case Err(e) => (Err(e), s)
      case Ok((d', c')) =>
        var id := d'.itemId.value;
        var ts := s.clock;
        var item := Item(id, d'.name.value, d'.description.value, if d'.createdAt.Some? then d'.createdAt.value else ts, ts);
        var others := if d'.stored.Some? then s.items - {d'.stored.value} else s.items;
        if f == WriteFault then (Err(PersistenceError), s.(counters := c'))
        else if id in others then (Err(DuplicateKeyError), s.(counters := c'))
        else (Ok(item), State(others[id := item], c', ts + 1))
  }

  /** A stored item satisfies the schema and agrees with the counter and the clock. */
  predicate StoredWell(k: int, it: Item, s: State) {
    && it.itemId == k
    && 1 <= k <= Ceiling(s.counters)
    && it.name != [] && NoEdgeSpace(it.name)
    && it.description != [] && NoEdgeSpace(it.description)
    && it.createdAt <= it.updatedAt < s.clock
  }

  /**
   * The store invariant: the counter never fell below zero, every item is
   * well formed, and creation times follow allocation order.
   */
  predicate Inv(s: State) {
    && Ceiling(s.counters) >= 0
    && (forall k :: k in s.items ==> StoredWell(k, s.items[k], s))
    && (forall j, k :: j in s.items && k in s.items && j < k ==> s.items[j].createdAt < s.items[k].createdAt)
  }

  /** The empty database satisfies the invariant. */
  lemma EmptyInv()
    ensures Inv(Empty)
  {
  }
}

=== FILE: properties.dfy ===
/**
 * Properties of the item store across handlers: the store invariant, how
 * `itemId`s are issued over any sequence of requests, and what a read sees
 * after a write.
 */
module Properties {
  import opened Wrappers
  import opened Text
  import opened ItemModel
  import opened Server

  // ------------------------------------------------------- invariant

  /** Advancing the counter keeps the invariant. */
  lemma CounterAdvancePreservesInv(s: State, c: map<string, int>)
    requires Inv(s) && Ceiling(s.counters) <= Ceiling(c)
    ensures Inv(s.(counters := c))
  {
    var t := s.(counters := c);
    forall k | k in t.items ensures StoredWell(k, t.items[k], t) {
      assert StoredWell(k, s.items[k], s);
    }
  }

  /** Storing a new item under the value just allocated, stamped with the current clock, keeps the invariant. */
  lemma InsertPreservesInv(s: State, it: Item, c: map<string, int>)
    requires Inv(s)
    requires it.itemId == Ceiling(s.counters) + 1 == Ceiling(c)
    requires it.createdAt == it.updatedAt == s.clock
    requires it.name != [] && NoEdgeSpace(it.name) && it.description != [] && NoEdgeSpace(it.description)
    ensures Inv(State(s.items[it.itemId := it], c, s.clock + 1))
  {
    var t := State(s.items[it.itemId := it], c, s.clock + 1);
    forall k | k in t.items ensures StoredWell(k, t.items[k], t) {
      if k != it.itemId {
        assert StoredWell(k, s.items[k], s);
      }
    }
    forall j, k | j in t.items && k in t.items && j < k ensures t.items[j].createdAt < t.items[k].createdAt {
      if k != it.itemId {
        assert StoredWell(k, s.items[k], s);
        assert j != it.itemId;
      } else {
        assert StoredWell(j, s.items[j], s);
      }
    }
  }

  /** Rewriting a stored item in place, keeping its creation time and stamping it now, keeps the invariant. */
  lemma ReplacePreservesInv(s: State, it: Item)
    requires Inv(s) && it.itemId in s.items
    requires it.createdAt == s.items[it.itemId].createdAt && it.updatedAt == s.clock
    requires it.name != [] && NoEdgeSpace(it.name) && it.description != [] && NoEdgeSpace(it.description)
    ensures Inv(State(s.items[it.itemId := it], s.counters, s.clock + 1))
  {
    var t := State(s.items[it.itemId := it], s.counters, s.clock + 1);
    forall k | k in t.items ensures StoredWell(k, t.items[k], t) {
      assert StoredWell(k, s.items[k], s);
    }
  }

  /** A create keeps the invariant and never lowers the counter. */
  lemma CreatePreservesInv(s: State, body: Body, f: Fault)
    requires Inv(s)
    ensures var out := Create(s, body, f);
      Inv(out.next) && Ceiling(s.counters) <= Ceiling(out.next.counters)
  {
    var out := Create(s, body, f);
    if out.response.status == StatusCreated {
      InsertPreservesInv(s, out.response.payload.item, out.next.counters);
    } else {
      CounterAdvancePreservesInv(s, out.next.counters);
    }
  }

  /** An update keeps the invariant and leaves the counter alone. */
  lemma UpdatePreservesInv(s: State, id: int, body: Body, f: Fault)
    requires Inv(s)
    ensures var out := Update(s, id, body, f);
      Inv(out.next) && out.next.counters == s.counters
  {
    var out := Update(s, id, body, f);
    UpdateKeepsItemId(s, id, body, f);
    if out.response.status == StatusOk {
      ReplacePreservesInv(s, out.response.payload.item);
    }
  }

  /** A delete keeps the invariant and leaves the counter alone. */
  lemma DeletePreservesInv(s: State, id: int, f: Fault)
    requires Inv(s)
    ensures var out := Delete(s, id, f);
      Inv(out.next) && out.next.counters == s.counters
  {
  }

  /** Every handler keeps the invariant and never lowers the counter. */
  lemma HandlePreservesInv(s: State, c: Call)
    requires Inv(s)
    ensures Inv(Handle(s, c).next)
    ensures Ceiling(s.counters) <= Ceiling(Handle(s, c).next.counters)
  {
    match c.request
    case CreateItem(body) => CreatePreservesInv(s, body, c.fault);
    case ListItems =>
    case GetItem(id) =>
    case UpdateItem(id, body) => UpdatePreservesInv(s, id, body, c.fault);
    case DeleteItem(id) => DeletePreservesInv(s, id, c.fault);
  }

  // ------------------------------------------------------- creation

  /**
   * A successful create stores a new item under the next value of the
   * sequence, which no stored item holds, and with the trimmed fields.
   */
  lemma CreateIssuesFreshId(s: State, body: Body, f: Fault)
    requires Inv(s)
    ensures var out := Create(s, body, f);
      out.response.status == StatusCreated ==>
        var it := out.response.payload.item;
        && (forall k :: k in s.items ==> k < it.itemId)
        && it.itemId >= 1
        && out.next.items == s.items[it.itemId := it]
  {
  }

  /** With valid fields and a working store, a create succeeds. */
  lemma CreateSucceeds(s: State, body: Body)
    requires Inv(s) && ValidBody(body)
    ensures Create(s, body, NoFault).response.status == StatusCreated
  {
    forall k | k in s.items ensures k <= Ceiling(s.counters) {
      assert StoredWell(k, s.items[k], s);
    }
  }

  /**
   * Before the counter record exists, the first create is numbered 1 and the
   * next one 2 (the upsert creates the record at the first allocation).
   */
  lemma FirstCreatesAreOneAndTwo(s: State, a: Body, b: Body)
    requires Inv(s) && CounterKey !in s.counters
    requires ValidBody(a) && ValidBody(b)
    ensures var first := Create(s, a, NoFault);
      var second := Create(first.next, b, NoFault);
      && first.response.status == StatusCreated && first.response.payload.item.itemId == 1
      && second.response.status == StatusCreated && second.response.payload.item.itemId == 2
  {
    assert Ceiling(s.counters) == 0;
    var A, t1 := CreateStep(s, a);
    assert A.itemId == 1 == Ceiling(t1.counters);
    var B, t2 := CreateStep(t1, b);
    assert B.itemId == 2;
  }

  // ------------------------------------------------------- update

  /**
   * A successful update keeps the item's `itemId` and creation time, rewrites
   * only that item, and neither reads nor advances the counter. A failed one
   * changes nothing.
   */
  lemma UpdateKeepsItemId(s: State, id: int, body: Body, f: Fault)
    requires Inv(s)
    ensures var out := Update(s, id, body, f);
      && out.next.counters == s.counters
      && (out.response.status != StatusOk ==> out.next == s)
      && (out.response.status == StatusOk ==>
            var it := out.response.payload.item;
            && it.itemId == id
            && it.createdAt == s.items[id].createdAt
            && out.next.items == s.items[id := it]
            && out.next.items.Keys == s.items.Keys)
  {
    if f != ReadFault && id in s.items {
      var cur := s.items[id];
      assert StoredWell(id, cur, s);
      var doc := Doc(Some(id), Some(cur.itemId), SetString(body.name), SetString(body.description), Some(cur.createdAt));
      SaveInPlace(s, doc, f);
      var (res, t) := Save(s, doc, f);
      if res.Ok? {
        assert Update(s, id, body, f) == Reply(Response(StatusOk, ItemJson(res.value)), t);
      } else {
        assert Update(s, id, body, f).next == t;
      }
    }
  }

  /**
   * Saving a document already stored under a truthy `itemId` leaves the
   * counter alone and, on success, rewrites that one entry in place; on
   * failure nothing changes. With valid fields only a failing write stops it.
   */
  lemma SaveInPlace(s: State, d: Doc, f: Fault)
    requires d.stored.Some? && d.itemId == d.stored && d.stored.value in s.items && d.stored.value != 0
    ensures var (res, t) := Save(s, d, f);
      && t.counters == s.counters
      && (res.Err? ==> t == s)
      && (Present(d.name) && Present(d.description) && f != WriteFault ==> res.Ok?)
      && (res.Ok? ==> res.value.itemId == d.stored.value && t.items == s.items[d.stored.value := res.value])
  {
    var id := d.stored.value;
    var (res, t) := Save(s, d, f);
    if res.Ok? {
      ReplaceEntry(s.items, id, res.value);
    }
  }

  /** Dropping a key and putting it back is overwriting it. */
  lemma ReplaceEntry(m: map<int, Item>, k: int, v: Item)
    requires k in m
    ensures (m - {k})[k := v] == m[k := v]
  {
  }

  /** With valid fields, an existing item and no failing read or write, an update succeeds. */
  lemma UpdateSucceeds(s: State, id: int, body: Body, f: Fault)
    requires Inv(s) && id in s.items && ValidBody(body)
    requires f == NoFault || f == CounterFault
    ensures Update(s, id, body, f).response.status == StatusOk
  {
    var cur := s.items[id];
    assert StoredWell(id, cur, s);
    var doc := Doc(Some(id), Some(cur.itemId), SetString(body.name), SetString(body.description), Some(cur.createdAt));
    SaveInPlace(s, doc, f);
    var (res, t) := Save(s, doc, f);
    assert Update(s, id, body, f) == Reply(Response(StatusOk, ItemJson(res.value)), t);
  }

  // ------------------------------------------------------- not found and failures

  /**
   * Every response other than 200 or 201 leaves the database as it was, and
   * a failed create changes at most the counter.
   */
  lemma FailuresLeaveStateUnchanged(s: State, c: Call)
    requires Inv(s)
    ensures var out := Handle(s, c);
      out.response.status != StatusOk && out.response.status != StatusCreated ==>
        if c.request.CreateItem? then out.next.items == s.items && out.next.clock == s.clock
        else out.next == s
  {
    if c.request.UpdateItem? {
      UpdateKeepsItemId(s, c.request.id, c.request.body, c.fault);
    }
  }

  /**
   * With a working store, a delete answers 200 exactly when the item was
   * there, and afterwards a lookup of that `itemId` is 404.
   */
  lemma GetAfterDeleteIsNotFound(s: State, id: int, f: Fault, g: Fault)
    requires f != ReadFault && f != WriteFault
    requires g != ReadFault
    ensures Delete(s, id, f).response.status == StatusOk <==> id in s.items
    ensures Get(Delete(s, id, f).next, id, g).response.status == StatusNotFound
  {
  }

  /** A lookup of a freshly created item returns exactly the created item. */
  lemma GetAfterCreate(s: State, body: Body, f: Fault, g: Fault)
    requires Create(s, body, f).response.status == StatusCreated
    requires g != ReadFault
    ensures var out := Create(s, body, f);
      var it := out.response.payload.item;
      && Get(out.next, it.itemId, g).response == Response(StatusOk, ItemJson(it))
      && it.name == Trim(body.name.value) && it.description == Trim(body.description.value)
  {
  }

  /** A lookup after a successful update sees the new fields under the same `itemId`. */
  lemma GetAfterUpdate(s: State, id: int, body: Body, f: Fault, g: Fault)
    requires Inv(s)
    requires Update(s, id, body, f).response.status == StatusOk
    requires g != ReadFault
    ensures var r := Get(Update(s, id, body, f).next, id, g).response;
      && r.status == StatusOk
      && r.payload.item.itemId == id
      && r.payload.item.name == Trim(body.name.value)
      && r.payload.item.description == Trim(body.description.value)
  {
    UpdateKeepsItemId(s, id, body, f);
  }

  // ------------------------------------------------------- listing

  /**
   * The list holds every stored item exactly once, strictly newest first;
   * since creation times follow allocation order, it is also in strictly
   * decreasing `itemId` order.
   */
  lemma ListIsNewestFirst(s: State, f: Fault)
    requires Inv(s) && f != ReadFault
    ensures List(s, f).response.status == StatusOk
    ensures StrictlyNewestFirst(List(s, f).response.payload.items, s.items)
  {
    var xs := List(s, f).response.payload.items;
    assert KeyedByItemId(s.items) by {
      forall k | k in s.items ensures s.items[k].itemId == k {
        assert StoredWell(k, s.items[k], s);
      }
    }
    forall i, j | 0 <= i < j < |xs| ensures xs[i].createdAt > xs[j].createdAt && xs[i].itemId > xs[j].itemId {
      assert xs[i] in s.items.Values && xs[j] in s.items.Values;
      var a :| a in s.items && s.items[a] == xs[i];
      var b :| b in s.items && s.items[b] == xs[j];
      assert a != b;
    }
    forall i | 0 <= i < |xs| ensures xs[i].itemId in s.items && s.items[xs[i].itemId] == xs[i] {
      assert xs[i] in s.items.Values;
    }
  }

  /**
   * `xs` lists every item of `items` exactly once, each as stored under its
   * `itemId`, in strictly decreasing creation time and `itemId`.
   */
  predicate StrictlyNewestFirst(xs: seq<Item>, items: map<int, Item>) {
    && |xs| == |items|
    && (forall k :: k in items ==> items[k] in xs)
    && (forall i :: 0 <= i < |xs| ==> xs[i].itemId in items && items[xs[i].itemId] == xs[i])
    && (forall i, j :: 0 <= i < j < |xs| ==> xs[i].createdAt > xs[j].createdAt && xs[i].itemId > xs[j].itemId)
  }

  /** A store holding items 1, 2 and 3 lists them as 3, 2, 1. */
  lemma ListOfThree(s: State)
    requires Inv(s) && s.items.Keys == {1, 2, 3}
    ensures List(s, NoFault).response.payload.items == [s.items[3], s.items[2], s.items[1]]
  {
    KeysOneTwoThree(s.items);
    ListIsNewestFirst(s, NoFault);
    var xs := List(s, NoFault).response.payload.items;
    DescendingOfThree(xs, s.items);
  }

  /** Inserting under keys 1, 2 and 3 into an empty map gives a map on exactly those keys. */
  lemma ThreeInserts(a: Item, b: Item, c: Item)
    ensures var r := map[][1 := a][2 := b][3 := c];
      r.Keys == {1, 2, 3} && r[1] == a && r[2] == b && r[3] == c
  {
  }

  /** A map on keys 1, 2 and 3 has three entries. */
  lemma KeysOneTwoThree(m: map<int, Item>)
    requires m.Keys == {1, 2, 3}
    ensures |m| == 3
  {
    assert |m.Keys| == 3;
  }

  /** Three items with strictly decreasing ids drawn from keys 1, 2 and 3 are exactly 3, 2, 1. */
  lemma DescendingOfThree(xs: seq<Item>, m: map<int, Item>)
    requires m.Keys == {1, 2, 3} && |m| == 3
    requires StrictlyNewestFirst(xs, m)
    ensures xs == [m[3], m[2], m[1]]
  {
    assert xs[0].itemId > xs[1].itemId > xs[2].itemId;
    assert xs[0].itemId in {1, 2, 3} && xs[2].itemId in {1, 2, 3};
  }

  /** One valid create on a healthy store: it succeeds with `it`, leaving `t`, which keeps the invariant. */
  lemma CreateStep(s: State, body: Body) returns (it: Item, t: State)
    requires Inv(s) && ValidBody(body)
    ensures Create(s, body, NoFault) == Reply(Response(StatusCreated, ItemJson(it)), t)
    ensures Inv(t)
    ensures it.itemId == Ceiling(s.counters) + 1 == Ceiling(t.counters)
    ensures t.items == s.items[it.itemId := it]
  {
    CreateSucceeds(s, body);
    CreatePreservesInv(s, body, NoFault);
    var out := Create(s, body, NoFault);
    it, t := out.response.payload.item, out.next;
  }

  /** Creating A, B and C in that order on a store without items or counter lists them as C, B, A. */
  lemma ThreeCreatesListNewestFirst(s: State, a: Body, b: Body, c: Body)
    requires Inv(s) && s.items == map[] && s.counters == map[]
    requires ValidBody(a) && ValidBody(b) && ValidBody(c)
    ensures var ra := Create(s, a, NoFault);
      var rb := Create(ra.next, b, NoFault);
      var rc := Create(rb.next, c, NoFault);
      && ra.response.status == rb.response.status == rc.response.status == StatusCreated
      && List(rc.next, NoFault).response.payload.items
           == [rc.response.payload.item, rb.response.payload.item, ra.response.payload.item]
  {
    var A, t1 := CreateStep(s, a);
    var B, t2 := CreateStep(t1, b);
    var C, t3 := CreateStep(t2, c);
    assert Ceiling(s.counters) == 0;
    assert A.itemId == 1 && Ceiling(t1.counters) == 1;
    assert B.itemId == 2 && Ceiling(t2.counters) == 2;
    assert C.itemId == 3;
    assert t3.items == s.items[1 := A][2 := B][3 := C];
    ThreeInserts(A, B, C);
    ListOfThree(t3);
  }

  // ------------------------------------------------------- traces

  /** Splitting a response sequence at its head splits the issued ids the same way. */
  lemma IssuedCons(r: Response, rs: seq<Response>)
    ensures Issued([r] + rs) == Issued([r]) + Issued(rs)
  {
    assert ([r] + rs)[1..] == rs;
    assert [r][1..] == [];
  }

  /** One request hands out at most one `itemId`: the counter's next value, which it then records. */
  lemma HandleIssuesNextValue(s: State, c: Call)
    requires Inv(s)
    ensures var rep := Handle(s, c);
      Issued([rep.response]) == [] || Issued([rep.response]) == [Ceiling(s.counters) + 1] == [Ceiling(rep.next.counters)]
  {
    var rep := Handle(s, c);
    IssuedOne(rep.response);
    if rep.response.status == StatusCreated && rep.response.payload.ItemJson? {
      CreateIssuesNextValue(s, c.request.body, c.fault);
    }
  }

  /** A single response issues its item's `itemId` exactly when it is a 201 carrying an item. */
  lemma IssuedOne(r: Response)
    ensures Issued([r]) == if r.status == StatusCreated && r.payload.ItemJson? then [r.payload.item.itemId] else []
  {
    assert [r][1..] == [];
  }

  /** A 201 from a create carries the counter's next value, which the counter then records. */
  lemma CreateIssuesNextValue(s: State, body: Body, f: Fault)
    ensures var out := Create(s, body, f);
      out.response.status == StatusCreated ==>
        out.response.payload.item.itemId == Ceiling(s.counters) + 1 == Ceiling(out.next.counters)
  {
  }

  /**
   * Over any sequence of requests, the `itemId`s handed out by successful
   * creates strictly increase, all exceed the counter's starting value, and
   * none exceeds its final value; deletes in between do not matter.
   */
  lemma {:induction false} RunIssuesIncreasingIds(s: State, calls: seq<Call>)
    requires Inv(s)
    ensures var r := Run(s, calls);
      && Inv(r.1)
      && Ceiling(s.counters) <= Ceiling(r.1.counters)
      && StrictlyIncreasing(Issued(r.0))
      && (forall i :: 0 <= i < |Issued(r.0)| ==> Ceiling(s.counters) < Issued(r.0)[i] <= Ceiling(r.1.counters))
    decreases |calls|
  {
    if calls != [] {
      var rep := Handle(s, calls[0]);
      HandlePreservesInv(s, calls[0]);
      HandleIssuesNextValue(s, calls[0]);
      var rest := Run(rep.next, calls[1..]);
      RunIssuesIncreasingIds(rep.next, calls[1..]);
      assert Run(s, calls) == ([rep.response] + rest.0, rest.1);
      IssuedCons(rep.response, rest.0);
      PrependIssued(Issued([rep.response]), Issued(rest.0),
        Ceiling(s.counters), Ceiling(rep.next.counters), Ceiling(rest.1.counters));
    }
  }

  /** Putting at most one fresh value in front of later, larger ones keeps the sequence increasing. */
  lemma PrependIssued(head: seq<int>, tail: seq<int>, lo: int, mid: int, hi: int)
    requires lo <= mid <= hi
    requires head == [] || head == [lo + 1] == [mid]
    requires StrictlyIncreasing(tail)
    requires forall i :: 0 <= i < |tail| ==> mid < tail[i] <= hi
    ensures StrictlyIncreasing(head + tail)
    ensures forall i :: 0 <= i < |head + tail| ==> lo < (head + tail)[i] <= hi
  {
    var all := head + tail;
    if head != [] {
      forall i, j | 0 <= i < j < |all| ensures all[i] < all[j] {
        assert all[j] == tail[j - 1];
        if i > 0 {
          assert all[i] == tail[i - 1];
        }
      }
    } else {
      assert all == tail;
    }
  }

  /** No `itemId` held by a stored item is ever handed out again, whatever requests follow. */
  lemma StoredIdsNeverReissued(s: State, calls: seq<Call>, id: int)
    requires Inv(s) && id in s.items
    ensures id !in Issued(Run(s, calls).0)
  {
    assert StoredWell(id, s.items[id], s);
    RunIssuesIncreasingIds(s, calls);
  }

  /** The `itemId` of a deleted item is never handed out again: the counter is not decremented. */
  lemma DeletedIdNeverReissued(s: State, id: int, f: Fault, calls: seq<Call>)
    requires Inv(s)
    requires Delete(s, id, f).response.status == StatusOk
    ensures id !in Issued(Run(Delete(s, id, f).next, calls).0)
  {
    var t := Delete(s, id, f).next;
    assert StoredWell(id, s.items[id], s);
    DeletePreservesInv(s, id, f);
    RunIssuesIncreasingIds(t, calls);
  }
}

=== FILE: server.dfy ===
/**
 * The five route handlers of server/server.js over the `ItemModel` database.
 * Each handler is a pure transition from a database state and a request to a
 * response (status code and JSON payload) and the next state. The `:id` path
 * parameter arrives already parsed to an integer.
 */
module Server {
  import opened Wrappers
  import opened Text
  import opened ItemModel

  const StatusOk: int := 200
  const StatusCreated: int := 201
  const StatusBadRequest: int := 400
  const StatusNotFound: int := 404
  const StatusServerError: int := 500

  /** A JSON request body; `itemId` is whatever the client sent under that key. */
  datatype Body = Body(name: Option<string>, description: Option<string>, itemId: Option<int>)

  /** The JSON payloads the handlers send. */
  datatype Payload =
    | ItemJson(item: Item)
    | ItemsJson(items: seq<Item>)
    | MessageJson(message: string)
    | ErrorJson(message: string, error: Error)
    | DeletedJson(message: string, deleted: Item)

  datatype Response = Response(status: int, payload: Payload)

  /** What a handler sends and the database it leaves behind. */
  datatype Reply = Reply(response: Response, next: State)

  /** One HTTP request on `/api/items`. */
  datatype Request =
    | CreateItem(body: Body)               // POST /api/items
    | ListItems                            // GET /api/items
    | GetItem(id: int)                     // GET /api/items/:id
    | UpdateItem(id: int, body: Body)      // PUT /api/items/:id
    | DeleteItem(id: int)                  // DELETE /api/items/:id

  /** A request together with the storage fault it meets. */
  datatype Call = Call(request: Request, fault: Fault)

  /** The body fields pass the schema validators once trimmed. */
  predicate ValidBody(body: Body) {
    Present(SetString(body.name)) && Present(SetString(body.description))
  }

  // ---------------------------------------------------------------- listing

  /** `xs` is ordered by `createdAt`, newest first. */
  predicate NewestFirst(xs: seq<Item>) {
    forall i, j :: 0 <= i < j < |xs| ==> xs[i].createdAt >= xs[j].createdAt
  }

  /** The position before the first item of `xs` that is not newer than `x`. */
  function InsertionPoint(x: Item, xs: seq<Item>): (p: nat)
    ensures p <= |xs|
    ensures forall i :: 0 <= i < p ==> xs[i].createdAt > x.createdAt
    ensures p < |xs| ==> xs[p].createdAt <= x.createdAt
  {
    if xs == [] || x.createdAt >= xs[0].createdAt then 0
    else 1 + InsertionPoint(x, xs[1..])
  }

  /** Inserts `x` into a newest-first sequence, before the first item not newer than it. */
  function InsertByCreated(x: Item, xs: seq<Item>): (r: seq<Item>)
    requires NewestFirst(xs)
    ensures NewestFirst(r)
    ensures |r| == |xs| + 1
    ensures multiset(r) == multiset(xs) + multiset{x}
    ensures forall y :: y in r <==> y == x || y in xs
    ensures (forall y :: y in xs ==> y.itemId != x.itemId) && DistinctIds(xs) ==> DistinctIds(r)
  {
    var p := InsertionPoint(x, xs);
    InsertAt(x, xs, p);
    xs[..p] + [x] + xs[p..]
  }

  /** Placing `x` at an insertion point keeps the order, adds exactly `x`, and keeps ids distinct. */
  lemma InsertAt(x: Item, xs: seq<Item>, p: nat)
    requires NewestFirst(xs) && p <= |xs|
    requires forall i :: 0 <= i < p ==> xs[i].createdAt > x.createdAt
    requires p < |xs| ==> xs[p].createdAt <= x.createdAt
    ensures var r := xs[..p] + [x] + xs[p..];
      && NewestFirst(r)
      && |r| == |xs| + 1
      && multiset(r) == multiset(xs) + multiset{x}
      && (forall y :: y in r <==> y == x || y in xs)
      && ((forall y :: y in xs ==> y.itemId != x.itemId) && DistinctIds(xs) ==> DistinctIds(r))
  {
    var r := xs[..p] + [x] + xs[p..];
    assert xs == xs[..p] + xs[p..];
    assert multiset(r) == multiset(xs[..p]) + multiset{x} + multiset(xs[p..]);
    InsertAtKeepsOrder(x, xs, p);
    if (forall y :: y in xs ==> y.itemId != x.itemId) && DistinctIds(xs) {
      InsertAtKeepsDistinct(x, xs, p);
    }
  }

  /** The item at position `i` after inserting `x` at position `p`. */
  lemma InsertAtIndex(x: Item, xs: seq<Item>, p: nat, i: nat)
    requires p <= |xs| && i <= |xs|
    ensures var r := xs[..p] + [x] + xs[p..];
      r[i] == if i < p then xs[i] else if i == p then x else xs[i - 1]
  {
  }

  /** Placing `x` after the items newer than it and before the rest keeps the newest-first order. */
  lemma InsertAtKeepsOrder(x: Item, xs: seq<Item>, p: nat)
    requires NewestFirst(xs) && p <= |xs|
    requires forall i :: 0 <= i < p ==> xs[i].createdAt > x.createdAt
    requires p < |xs| ==> xs[p].createdAt <= x.createdAt
    ensures NewestFirst(xs[..p] + [x] + xs[p..])
  {
    var r := xs[..p] + [x] + xs[p..];
    forall i, j | 0 <= i < j < |r| ensures r[i].createdAt >= r[j].createdAt {
      InsertAtIndex(x, xs, p, i);
      InsertAtIndex(x, xs, p, j);
      if i == p && j > p {
        assert xs[j - 1].createdAt <= xs[p].createdAt;
      }
    }
  }

  /** Placing an item whose `itemId` no element carries keeps the ids distinct. */
  lemma InsertAtKeepsDistinct(x: Item, xs: seq<Item>, p: nat)
    requires p <= |xs| && DistinctIds(xs)
    requires forall y :: y in xs ==> y.itemId != x.itemId
    ensures DistinctIds(xs[..p] + [x] + xs[p..])
  {
    var r := xs[..p] + [x] + xs[p..];
    forall i, j | 0 <= i < j < |r| ensures r[i].itemId != r[j].itemId {
      InsertAtIndex(x, xs, p, i);
      InsertAtIndex(x, xs, p, j);
    }
  }

  /** No two items of `xs` carry the same `itemId`. */
  predicate DistinctIds(xs: seq<Item>) {
    forall i, j :: 0 <= i < j < |xs| ==> xs[i].itemId != xs[j].itemId
  }

  /** Every item is stored under its own `itemId`. */
  predicate KeyedByItemId(items: map<int, Item>) {
    forall k :: k in items ==> items[k].itemId == k
  }

  /** `k` is the largest element of `ks`. */
  predicate IsLargest(k: int, ks: set<int>) {
    k in ks && forall j :: j in ks ==> j <= k
  }

  /** A set other than the empty set has a member. */
  lemma HasMember(ks: set<int>)
    requires ks != {}
    ensures exists x :: x in ks
  {
    if forall x :: x !in ks {
      assert false;
    }
  }

  /** A non-empty finite set of integers has a largest element. */
  lemma {:induction false} HasLargest(ks: set<int>)
    requires ks != {}
    ensures exists k :: IsLargest(k, ks)
    decreases |ks|
  {
    HasMember(ks);
    var x :| x in ks;
    if forall j :: j in ks ==> j <= x {
      assert IsLargest(x, ks);
    } else {
      var rest := ks - {x};
      var w :| w in ks && w > x;
      assert w in rest;
      HasLargest(rest);
      var y :| IsLargest(y, rest);
      forall j | j in ks ensures j <= y {
        if j != x {
          assert j in rest;
        }
      }
      assert IsLargest(y, ks);
    }
  }

  /** The largest key of a non-empty map. */
  function LargestKey(items: map<int, Item>): (k: int)
    requires items != map[]
    ensures k in items
    ensures forall j :: j in items ==> j <= k
  {
    HasLargest(items.Keys);
    var k :| IsLargest(k, items.Keys);
    k
  }

  /** `Item.find().sort({ createdAt: -1 })`: every stored item exactly once, newest first. */
  function Listing(items: map<int, Item>): (r: seq<Item>)
    ensures NewestFirst(r)
    ensures |r| == |items|
    ensures forall k :: k in items ==> items[k] in r
    ensures forall i :: 0 <= i < |r| ==> r[i] in items.Values
    ensures KeyedByItemId(items) ==> DistinctIds(r)
    decreases |items|
  {
    if items == map[] then []
    else
      var k := LargestKey(items);
      var rest := items - {k};
      assert rest.Keys == items.Keys - {k};
      var tail := Listing(rest);
      ListingStep(items, k, rest, tail);
      InsertByCreated(items[k], tail)
  }

  /**
   * One step of the listing: placing the item under `k` into a listing of the
   * other items gives a listing of all of them.
   */
  lemma ListingStep(items: map<int, Item>, k: int, rest: map<int, Item>, tail: seq<Item>)
    requires k in items && rest == items - {k}
    requires NewestFirst(tail) && |tail| == |rest|
    requires forall j :: j in rest ==> rest[j] in tail
    requires forall i :: 0 <= i < |tail| ==> tail[i] in rest.Values
    requires KeyedByItemId(rest) ==> DistinctIds(tail)
    ensures var r := InsertByCreated(items[k], tail);
      && |r| == |items|
      && (forall j :: j in items ==> items[j] in r)
      && (forall i :: 0 <= i < |r| ==> r[i] in items.Values)
      && (KeyedByItemId(items) ==> DistinctIds(r))
  {
    assert rest.Keys == items.Keys - {k};
    var r := InsertByCreated(items[k], tail);
    ListingStepCovers(items, k, rest, tail, r);
    ListingStepValues(items, k, rest, tail, r);
    if KeyedByItemId(items) {
      ListingStepFresh(items, k, rest, tail);
    }
  }

  /** Every item, the new one or one already listed, appears after the insertion. */
  lemma ListingStepCovers(items: map<int, Item>, k: int, rest: map<int, Item>, tail: seq<Item>, r: seq<Item>)
    requires k in items && rest == items - {k}
    requires forall j :: j in rest ==> rest[j] in tail
    requires forall y :: y in r <==> y == items[k] || y in tail
    ensures forall j :: j in items ==> items[j] in r
  {
    forall j | j in items ensures items[j] in r {
      if j != k {
        assert rest[j] in tail;
      }
    }
  }

  /** Every element after the insertion is a stored item. */
  lemma ListingStepValues(items: map<int, Item>, k: int, rest: map<int, Item>, tail: seq<Item>, r: seq<Item>)
    requires k in items && rest == items - {k}
    requires forall i :: 0 <= i < |tail| ==> tail[i] in rest.Values
    requires forall y :: y in r <==> y == items[k] || y in tail
    ensures forall i :: 0 <= i < |r| ==> r[i] in items.Values
  {
    forall i | 0 <= i < |r| ensures r[i] in items.Values {
      if r[i] != items[k] {
        assert r[i] in tail;
        var n :| 0 <= n < |tail| && tail[n] == r[i];
        KeyOfValue(rest, tail[n]);
        var m :| m in rest && rest[m] == r[i];
        assert items[m] == r[i];
      }
    }
  }

  /** A value of a map is stored under some key. */
  lemma KeyOfValue(m: map<int, Item>, v: Item)
    requires v in m.Values
    ensures exists k :: k in m && m[k] == v
  {
    if forall k :: k in m ==> m[k] != v {
      assert false;
    }
  }

  /** When items sit under their own `itemId`, no other item carries the new one's id. */
  lemma ListingStepFresh(items: map<int, Item>, k: int, rest: map<int, Item>, tail: seq<Item>)
    requires k in items && rest == items - {k} && KeyedByItemId(items)
    requires forall i :: 0 <= i < |tail| ==> tail[i] in rest.Values
    ensures KeyedByItemId(rest)
    ensures forall y :: y in tail ==> y.itemId != items[k].itemId
  {
    forall y | y in tail ensures y.itemId != items[k].itemId {
      var n :| 0 <= n < |tail| && tail[n] == y;
      KeyOfValue(rest, tail[n]);
      var m :| m in rest && rest[m] == y;
    }
  }

  // ---------------------------------------------------------------- handlers

  /**
   * POST /api/items: the new document is built from `name` and `description`
   * only, then saved; success is 201 with the stored item, any error is 400.
   */
  function Create(s: State, body: Body, f: Fault): (out: Reply)
    ensures out.response.status == StatusCreated || out.response.status == StatusBadRequest
    ensures out.response.status == StatusCreated ==>
      && out.response.payload.ItemJson?
      && var it := out.response.payload.item;
      && ValidBody(body)
      && it.itemId == Ceiling(s.counters) + 1
      && out.next.counters == s.counters[CounterKey := it.itemId]
      && it.name == Trim(body.name.value) && it.description == Trim(body.description.value)
      && it.createdAt == it.updatedAt == s.clock
      && it.itemId !in s.items
      && out.next.items == s.items[it.itemId := it]
      && out.next.clock == s.clock + 1
    ensures out.response.status == StatusBadRequest ==>
      && out.response.payload.ErrorJson?
      && out.response.payload.message == "Error creating item"
      && out.next.items == s.items && out.next.clock == s.clock
      && (out.next.counters == s.counters || out.next.counters == s.counters[CounterKey := Ceiling(s.counters) + 1])
    ensures !ValidBody(body) ==>
      && out.response.status == StatusBadRequest
      && out.response.payload.error.ValidationError?
      && out.next == s
    ensures ValidBody(body) && f == CounterFault ==>
      out.response.status == StatusBadRequest && out.next == s
    ensures ValidBody(body) && (f == NoFault || f == ReadFault) && Ceiling(s.counters) + 1 !in s.items ==>
      out.response.status == StatusCreated
    ensures ValidBody(body) && f == WriteFault ==>
      && out.response.status == StatusBadRequest
      && out.next.counters == s.counters[CounterKey := Ceiling(s.counters) + 1]
  {
    var doc := Doc(None, None, SetString(body.name), SetString(body.description), None);
    var (res, next) := Save(s, doc, f);
    match res
    case Ok(item) => Reply(Response(StatusCreated, ItemJson(item)), next)
    case Err(e) => Reply(Response(StatusBadRequest, ErrorJson("Error creating item", e)), next)
  }

  /** GET /api/items: 200 with every item, newest first; a failing query is 500. */
  function List(s: State, f: Fault): (out: Reply)
    ensures out.next == s
    ensures out.response.status == StatusServerError <==> f == ReadFault
    ensures out.response.status != StatusServerError ==>
      && out.response.status == StatusOk
      && out.response.payload.ItemsJson?
      && var xs := out.response.payload.items;
      && NewestFirst(xs)
      && |xs| == |s.items|
      && (forall k :: k in s.items ==> s.items[k] in xs)
      && (forall i :: 0 <= i < |xs| ==> xs[i] in s.items.Values)
  {
    if f == ReadFault then Reply(Response(StatusServerError, ErrorJson("Error fetching items", PersistenceError)), s)
    else Reply(Response(StatusOk, ItemsJson(Listing(s.items))), s)
  }

  /** GET /api/items/:id: looks the item up by `itemId`; 404 when absent, 500 when the query fails. */
  function Get(s: State, id: int, f: Fault): (out: Reply)
    ensures out.next == s
    ensures f == ReadFault ==> out.response.status == StatusServerError
    ensures f != ReadFault ==>
      && (out.response.status == StatusNotFound <==> id !in s.items)
      && (id in s.items ==> out.response == Response(StatusOk, ItemJson(s.items[id])))
  {
    if f == ReadFault then Reply(Response(StatusServerError, ErrorJson("Error fetching item", PersistenceError)), s)
    else if id !in s.items then Reply(Response(StatusNotFound, MessageJson("Item not found")), s)
    else Reply(Response(StatusOk, ItemJson(s.items[id])), s)
  }

  /**
   * PUT /api/items/:id: finds the item by `itemId` (404 when absent), assigns
   * `name` and `description` and saves; success is 200 with the saved item and
   * every error, including a failing lookup, is 400.
   */
  function Update(s: State, id: int, body: Body, f: Fault): (out: Reply)
    ensures out.response.status in {StatusOk, StatusNotFound, StatusBadRequest}
    ensures f == ReadFault ==> out.response.status == StatusBadRequest && out.next == s
    ensures f == WriteFault && id in s.items ==> out.response.status == StatusBadRequest
    ensures f != ReadFault ==> (out.response.status == StatusNotFound <==> id !in s.items)
    ensures out.response.status == StatusNotFound ==> out.next == s
    ensures f != ReadFault && id in s.items && !ValidBody(body) ==>
      out.response.status == StatusBadRequest && out.next == s
    ensures out.response.status == StatusOk ==>
      && id in s.items && ValidBody(body)
      && out.response.payload.ItemJson?
      && var it := out.response.payload.item;
      && it.name == Trim(body.name.value) && it.description == Trim(body.description.value)
      && it.createdAt == s.items[id].createdAt
      && it.updatedAt == s.clock
      && out.next.clock == s.clock + 1
  {
    if f == ReadFault then Reply(Response(StatusBadRequest, ErrorJson("Error updating item", PersistenceError)), s)
    else if id !in s.items then Reply(Response(StatusNotFound, MessageJson("Item not found")), s)
    else
      var current := s.items[id];
      var doc := Doc(Some(id), Some(current.itemId), SetString(body.name), SetString(body.description), Some(current.createdAt));
      var (res, next) := Save(s, doc, f);
      match res
      case Ok(item) => Reply(Response(StatusOk, ItemJson(item)), next)
      case Err(e) => Reply(Response(StatusBadRequest, ErrorJson("Error updating item", e)), next)
  }

  /**
   * DELETE /api/items/:id: removes the item with that `itemId` and returns it;
   * 404 when absent, 500 when the query fails. The counter is not touched.
   */
  function Delete(s: State, id: int, f: Fault): (out: Reply)
    ensures out.response.status in {StatusOk, StatusNotFound, StatusServerError}
    ensures out.response.status == StatusServerError <==> f == ReadFault || f == WriteFault
    ensures f != ReadFault && f != WriteFault ==> (out.response.status == StatusNotFound <==> id !in s.items)
    ensures out.response.status != StatusOk ==> out.next == s
    ensures out.response.status == StatusOk ==>
      && id in s.items
      && out.response.payload == DeletedJson("Item deleted successfully", s.items[id])
      && out.next == s.(items := s.items - {id})
  {
    if f == ReadFault || f == WriteFault then
      Reply(Response(StatusServerError, ErrorJson("Error deleting item", PersistenceError)), s)
    else if id !in s.items then Reply(Response(StatusNotFound, MessageJson("Item not found")), s)
    else Reply(Response(StatusOk, DeletedJson("Item deleted successfully", s.items[id])), s.(items := s.items - {id}))
  }

  /**
   * The route table: routes one call to its handler. Only POST creates, the
   * two GET routes never change the database, and a 404 changes nothing.
   */
  function Handle(s: State, c: Call): (out: Reply)
    ensures out.response.status in {StatusOk, StatusCreated, StatusBadRequest, StatusNotFound, StatusServerError}
    ensures out.response.status == StatusCreated <==> c.request.CreateItem? && out.response.payload.ItemJson?
    ensures c.request.ListItems? || c.request.GetItem? ==> out.next == s
    ensures out.response.status == StatusNotFound ==> !c.request.CreateItem? && !c.request.ListItems? && out.next == s
  {
    match c.request
    case CreateItem(body) => Create(s, body, c.fault)
    case ListItems => List(s, c.fault)
    case GetItem(id) => Get(s, id, c.fault)
    case UpdateItem(id, body) => Update(s, id, body, c.fault)
    case DeleteItem(id) => Delete(s, id, c.fault)
  }

  /** Serves `calls` one after another from `s`: the responses in order and the final state. */
  function Run(s: State, calls: seq<Call>): (r: (seq<Response>, State))
    ensures |r.0| == |calls|
    decreases |calls|
  {
    if calls == [] then ([], s)
    else
      var rep := Handle(s, calls[0]);
      var (rs, t) := Run(rep.next, calls[1..]);
      ([rep.response] + rs, t)
  }

  /** The `itemId`s handed to clients by successful creates, in response order. */
  function Issued(rs: seq<Response>): seq<int> {
    if rs == [] then []
    else
      (if rs[0].status == StatusCreated && rs[0].payload.ItemJson? then [rs[0].payload.item.itemId] else [])
      + Issued(rs[1..])
  }
}

=== FILE: text.dfy ===
/**
 * String trimming as performed by the `trim: true` option of a Mongoose
 * string path, which applies JavaScript's `String.prototype.trim`.
 */
module Text {

  /** The code points `String.prototype.trim` strips: ECMAScript WhiteSpace and LineTerminator. */
  predicate IsSpace(c: char) {
    || c == '\t' || c == '\n' || c == '\U{000B}' || c == '\U{000C}' || c == '\r' || c == ' '
    || c == '\U{00A0}' || c == '\U{1680}' || ('\U{2000}' <= c <= '\U{200A}')
    || c == '\U{2028}' || c == '\U{2029}' || c == '\U{202F}' || c == '\U{205F}'
    || c == '\U{3000}' || c == '\U{FEFF}'
  }

  /** The characters of `s` before position `i` are all white space. */
  predicate SpaceBefore(s: string, i: int) {
    forall k :: 0 <= k < i && k < |s| ==> IsSpace(s[k])
  }

  /** The characters of `s` from position `j` on are all white space. */
  predicate SpaceFrom(s: string, j: int) {
    forall k :: 0 <= j <= k < |s| ==> IsSpace(s[k])
  }

  /** Every character of `s` is white space (vacuously true of the empty string). */
  predicate AllSpace(s: string) {
    SpaceBefore(s, |s|)
  }

  /** `s` neither starts nor ends with white space. */
  predicate NoEdgeSpace(s: string) {
    s == [] || (!IsSpace(s[0]) && !IsSpace(s[|s| - 1]))
  }

  /** `s` without its leading white space. */
  function TrimStart(s: string): (r: string)
    ensures |r| <= |s| && r == s[|s| - |r|..]
    ensures r == [] || !IsSpace(r[0])
    ensures SpaceBefore(s, |s| - |r|)
  {
    if |s| > 0 && IsSpace(s[0]) then
      var r := TrimStart(s[1..]);
      assert forall k :: 1 <= k < |s| - |r| ==> s[k] == s[1..][k - 1];
      r
    else s
  }

  /** `s` without its trailing white space. */
  function TrimEnd(s: string): (r: string)
    ensures |r| <= |s| && r == s[..|r|]
    ensures r == [] || !IsSpace(r[|r| - 1])
    ensures SpaceFrom(s, |r|)
  {
    if |s| > 0 && IsSpace(s[|s| - 1]) then
      var r := TrimEnd(s[..|s| - 1]);
      assert forall k :: |r| <= k < |s| - 1 ==> s[k] == s[..|s| - 1][k];
      r
    else s
  }

  /** `s` without leading and trailing white space. */
  function Trim(s: string): (r: string)
    ensures |r| <= |s|
    ensures NoEdgeSpace(r)
    ensures r == [] <==> AllSpace(s)
  {
    var t := TrimStart(s);
    var r := TrimEnd(t);
    assert t != [] ==> !IsSpace(t[0]) && |r| > 0;
    r
  }

  /**
   * An independent description of trimming: whenever `s` splits into a white-space
   * prefix, a core without edge spaces and a white-space suffix, `Trim` returns the core.
   */
  lemma TrimIsCore(s: string, i: nat, j: nat)
    requires i <= j <= |s|
    requires SpaceBefore(s, i) && SpaceFrom(s, j) && NoEdgeSpace(s[i..j])
    ensures Trim(s) == s[i..j]
  {
  }

  /** A string without edge spaces is its own trim. */
  lemma TrimUnpadded(s: string)
    requires NoEdgeSpace(s)
    ensures Trim(s) == s
  {
    assert s[0..|s|] == s;
    TrimIsCore(s, 0, |s|);
  }

  /** Trimming twice is trimming once. */
  lemma TrimIdempotent(s: string)
    ensures Trim(Trim(s)) == Trim(s)
  {
    TrimUnpadded(Trim(s));
  }
}

=== FILE: wrappers.dfy ===
/** The optional-value and success-or-error types the item-store model is written with. */
module Wrappers {

  /** An optional value: `None` stands for a JavaScript `undefined` or `null`. */
  datatype Option<+T> = None | Some(value: T)

  /** The outcome of a storage step: a value, or the error that aborted it. */
  datatype Result<+T, +E> = Ok(value: T) | Err(error: E)
}
